=== FILE: README.md ===
# Link compliance checker — verified model of its decision core

The application reads a table whose cells contain links (bare URLs, HTML
anchors, free text), probes every link over HTTP, classifies the result into a
fixed set of compliance labels, and reports only the rows whose link is not
operational. This project models, in Dafny, the deterministic part of
`app.py`:

- **URL extractor** (`extraer_url_mejorada`): the two regular-expression
  searches become hand-written scanners. The regex semantics are stated
  declaratively: `HrefMatch` and `BareMatch` say when a pattern matches at a
  position and where its match ends. The scanners are proved to return the
  leftmost match.
- **Link classifier** (`clasificar_url`): the HTTP round trip becomes an
  input `Outcome`. It is either a response or one of the three exception
  kinds the code catches. The labels form a closed datatype `Label`, and
  `Render` gives the code's label text.
- **Row processor** (`procesar_fila`): the first field that yields a URL
  wins. The row is dropped when no field yields one or when the label text is
  the operational one. Otherwise the row is extended with the detected URL and
  the reason. The classifier is a parameter.
- **Chunked run**: the `range(0, N, 300)` loop, the announced chunk count,
  and the collection of kept rows per chunk. Within a chunk the rows come
  back in any completion order.
- **Report assembly**: the reason column moves to the front. A trace column
  is added: its header is the original column names joined with `"; "`, and
  its cells are the kept row's values of the original columns, in original
  column order, joined the same way. The trace
  column moves to the end. An empty result gives an explicit "all compliant"
  report.

Modules: `Wrappers` (Option), `Text` (substring, ASCII lower-case, `strip`,
`join`), `Decimal` (`f"{n}"` and its parser), `UrlExtractor`, `Classifier`,
`RowProcessor`, `Batch`, `Report`, and `Run` (the chunked run with the real
row processor plugged in).

Behaviours of the code worth knowing:

- The portal rule tests whether `"portaltransparencia.cl"` is a substring of
  the URL as given. It does not test the host the request resolved to.
- The added columns `URL detectada` and `Motivo de incumplimiento` overwrite
  user columns of the same name. They are not renamed. The trace cell is
  built from the kept row, so for such a table it shows the detected URL or
  the reason in place of the user's cell.
- When the table has a single column, the trace header equals that column's
  name and replaces that column.
- A failure outside `clasificar_url` is not caught per row. There is no
  per-row fault isolation beyond the classifier's catch-all.

## Model

| member | source | states |
|---|---|---|
| `UrlExtractor.ExtractUrl` | app.py:96-107 | None exactly when neither pattern matches anywhere. Otherwise the result is a contiguous piece of the text. It starts with `http://` or `https://` and has a character after the scheme. It contains no whitespace (Python's `\s`) and no quote. It is the href group of a match or, when no href matches, a greedy bare match. |
| `UrlExtractor.FindHref` | app.py:100-102 | Returns the leftmost position where the quoted-href pattern matches, with the end of its group. No position before it matches. None means no position matches. |
| `UrlExtractor.FindBare` | app.py:104-106 | The same for the bare pattern. The returned end is maximal: the next character is whitespace, a quote, `<`, `>`, or the end of the text. |
| `UrlExtractor.ExtractPrefersHref` | app.py:99-102 | The first quoted-href match is returned, whatever bare URLs appear earlier in the text. |
| `UrlExtractor.ExtractBareIsLeftmostLongest` | app.py:103-106 | Without any href match, the first bare URL is returned whole, up to its stopping character. |
| `UrlExtractor.AnchorUrlExtractedWhole` | app.py:95-102 | A URL quoted in an anchor comes back exactly, with no truncation, whatever follows it. |
| `UrlExtractor.RunEndIsTheOnlyBoundary` | app.py:100 | A repeated character class can only stop where the longest run stops, so the greedy `+` has nothing to backtrack to. |
| `Text.Contains` | app.py:124-128 | Python's `t in s` is true exactly when `t` occurs at some index of `s`. |
| `Text.Strip` | app.py:132 | `strip('/')` leaves the piece of the path between the two runs of slashes. That piece neither starts nor ends with a slash. |
| `Text.AsciiLower` | app.py:128 | `lower()` on ASCII: same length, every capital becomes its lower-case letter (code + 32), every other character is unchanged, and no capital remains. |
| `Text.Join` | app.py:303-305 | `"; ".join`: the empty list joins to `""` and a one-element list to its element; a non-empty list's join starts with its first element and ends with its last. With `Text.JoinSnoc` this fixes the join on every list. |
| `Text.JoinSnoc` | app.py:303-305 | Joining one more name appends the separator and that name, so the trace header of n + 1 columns extends the header of the first n. |
| `Text.JoinPrefix` | app.py:303 | The join of the first k names (k ≥ 1) is a prefix of the join of all of them. |
| `Classifier.Render` | app.py:126-153 | Every label text is non-empty, and a text starts with `Otro error HTTP: ` exactly when the label is `OtherHttp`. |
| `Classifier.Classify` | app.py:109-153 | ConnectError, Timeout and any other exception map one-to-one to their three labels. `OtherHttp` arises only from a response and carries its status, which is none of 200, 401, 403 or 404 and is below 500. The portal tests are `Classifier.IsPortalUrl` (app.py:124), `Classifier.IsDownload` (app.py:125-126) and `Classifier.IsAccessDenied` (app.py:128); the home test is `Classifier.IsHomePath` (app.py:131-135). |
| `Classifier.PortalRulesTakePrecedence` | app.py:124-129 | On a portal URL, a PDF, octet-stream or attachment response is operational whatever the status. Otherwise an HTML body saying "acceso denegado" is forbidden whatever the status. |
| `Classifier.StatusDecidesOtherwise` | app.py:130-147 | When no portal rule applies: 200 with a home path gives the Home label and any other 200 is operational; 401 is auth; 403 is forbidden; 404 is not found; 500 and above is the 5XX label; anything else is `OtherHttp(status)`. |
| `Classifier.OperationalExactly` | app.py:124-137 | A link is operational exactly when it is a portal download, or a 200 whose final path is not home and that no portal rule overrides. |
| `Classifier.ForbiddenExactly` | app.py:124-141 | A link is forbidden exactly when it is a portal denial page or a 403, and not a portal download. |
| `Classifier.OtherHttpTextCarriesCode` | app.py:146-147 | Only the `Otro error HTTP: ` texts start with that prefix, and the rest parses back to the status. |
| `Classifier.RenderInjective` | app.py:126-153 | Different labels have different texts. |
| `Classifier.RenderOperationalOnly` | app.py:166 | The text compared against in `procesar_fila` is produced by the operational label and by no other. |
| `Decimal.IntToDecimal` | app.py:147 | `f"{status}"`: a minus sign exactly for negative numbers, then only digits, with a leading zero only for 0 itself. |
| `Decimal.ParseIntOfDecimal` | app.py:147 | The decimal rendering of a status, negative numbers included, reads back as the same number. |
| `Decimal.IntToDecimalInjective` | app.py:147 | Different statuses render differently. |
| `RowProcessor.FirstUrlField` | app.py:157-161 | Returns the index of the first field from which a URL is extracted. No earlier field yields one. None means no field does. |
| `RowProcessor.DetectedUrl` | app.py:156-163 | None exactly when no field yields a URL. Otherwise it is the extraction of the first field that yields one. |
| `RowProcessor.Row.Put` | app.py:168-169 | Assigning a key of the row's dict: the key now holds the value, every other key keeps its value, the row stays well-formed, and the column list grows by one only when the key is new, at the end. |
| `RowProcessor.ProcessRow` | app.py:155-171 | For any classifier, a row without a URL gives None. The result is None exactly when there is no URL or the label text is the operational one. A kept row has every original field unchanged and only `URL detectada` and `Motivo de incumplimiento` set or overwritten. Its columns keep the original order, with new keys appended. |
| `RowProcessor.ProbedRowDroppedIffOperational` | app.py:165-171 | With the real classifier `RowProcessor.ClassifyProbed` (`clasificar_url` as the row processor calls it: `Render` of `Classify` on the probed outcome), a row is dropped exactly when it has no URL or its URL classifies as operational. |
| `Batch.ChunkCount` | app.py:245 | The announced count is the ceiling of N/C: C·k ≥ N, and C·(k−1) < N when k > 0. So N = 0 gives 0. |
| `Batch.CeilingIsUnique` | app.py:245-250 | Only one count satisfies both ceiling bounds, so the loop's chunk count equals the announced count. |
| `Batch.PlanChunks` | app.py:250-253 | The chunks of `range(0, N, C)` start at 0, are contiguous, and end at N. There are ceil(N/C) of them. Each has between 1 and C rows, all but the last exactly C, and the last has N − C·(count−1). |
| `Batch.PlanTable` | app.py:250-253 | With `CHUNK_SIZE` = 300 (app.py:14): the chunks tile the table, there are ChunkCount(N, 300) of them, and all but the last hold exactly 300 rows. |
| `Batch.ChunkCountAtChunkSize` | app.py:245 | The announced count at 300 rows per chunk: 0 rows give 0 chunks, 1 and 300 rows give 1, 301 give 2, and 1000 give 4. |
| `Batch.Slices` | app.py:252-253 | `df.iloc[start:end]` for every chunk: one block per chunk. With `Batch.TilesReassemble`, the blocks concatenate back to the table. |
| `Batch.TilesReassemble` | app.py:250-253 | Concatenating the chunks' row slices gives back the table, so no row is lost or repeated. |
| `Batch.EachRowInExactlyOneChunk` | app.py:250-256 | Every row index lies in exactly one chunk. |
| `Batch.Collect` | app.py:257-264 | The rows of a block that the processor keeps, in order: no more results than rows, every result is the kept value of some row, and every kept value is among the results. |
| `Batch.CollectByBlocks` | app.py:257-265 | Collecting kept rows block by block, in any order within each block, gives the multiset of collecting the concatenated blocks. |
| `Batch.RunKeepsEachFlaggedRowOnce` | app.py:250-265 | Whatever the completion order inside each chunk, the run's results are the row-by-row kept rows as a multiset, with the same count. |
| `Run.ChunkedRunReportsKeptRows` | app.py:250-265 | With `procesar_fila` as the per-row step and any completion order in each chunk, the results are, as a multiset, the rows kept row by row. Every reported row is `ProcessRow` of some table row, and every row `ProcessRow` keeps is reported. |
| `Run.ReportedRowsComeFromTable` | app.py:257-265 | A result multiset equal to the collected kept rows holds only rows that `ProcessRow` produced from a row of the table. |
| `Run.KeptRowsAreReported` | app.py:257-265 | The same multiset holds every row that `ProcessRow` keeps. |
| `Report.IndexOf` | app.py:271 | `list.index` returns the first position holding the value. |
| `Report.MoveToFront` | app.py:270-272 | The result is a permutation with the value first. The other columns keep their relative order. |
| `Report.MoveToEnd` | app.py:310-311 | The result is a permutation with the value last. The other columns keep their order, and a different first column stays first. |
| `Report.WithColumn` | app.py:304 | Assigning the trace column to the frame: the old columns stay, in order, as a prefix, and nothing else appears. A name that is already a column replaces it in place and adds no column; a new name is added once, at the end. |
| `Report.ReportColumns` | app.py:307-312 | The final columns are a permutation of the frame's columns plus the trace header, unless a column already has that name. The trace header is last, the reason is first (when the two differ), and every other column keeps its relative order. |
| `Report.SingleColumnTraceHeader` | app.py:303-304 | For a one-column table, the trace header (`Report.TraceHeader`) is that column's name, and assigning the trace column adds no column. |
| `Report.TraceRows` | app.py:303-306 | Each row gains the trace cell under the header `Report.TraceHeader` (the original column names joined with `"; "`). The cell is `Report.TraceValue`: the kept row's values of the original columns, in original column order, joined with `"; "`. Every other cell is unchanged. |
| `Report.Assemble` | app.py:301-312 | No kept rows gives the "all compliant" report. Otherwise the table has one row per kept row, with the column and trace guarantees above. |
| `Report.KeptRowsAreAssemblable` | app.py:302-306 | Rows the row processor keeps from one table share one column list and hold every original column and the reason. So they meet what assembly needs. |
| `Report.ReportLayout` | app.py:302-312 | When no name collides, the report columns are: reason, the original columns, `URL detectada`, then the trace header. |

## Left out

- Streamlit page setup, the logo, CSS and HTML banners, per-chunk and final tables as displayed, and the results dictionary (`mostrar_diccionario`): presentation only.
- `read_file`: chardet encoding sniffing and pandas CSV and Excel parsing belong to libraries outside this model. The table reaches the model as rows of column names and cell texts.
- The httpx client, its headers, redirects and 15-second timeout: the outcome of the request is an input (`Outcome`), not a network call.
- The 20-worker thread pool and `as_completed`: concurrency is not modelled. A chunk's results are allowed to come back in any order (a multiset per chunk).
- Progress-bar fractions, the per-chunk status messages, and the Excel export with its base64 download link.
- Python's Unicode `str.lower()` is modelled as ASCII lower-casing. No non-ASCII character lower-cases to a letter of `<html` or `acceso denegado`, so the two tests agree on those needles.
- The `pd.isna` branch of the extractor is not modelled. The row processor always passes `str(campo)`, so that branch never runs.
- The `str(final_url)` fallback when computing the path is not modelled. An httpx response always has a URL with a `.path`, so the final path is part of the `Outcome`.
- Cells are modelled by their `str()` text. How pandas renders numbers, dates or missing values as text is not modelled.
- Column names within a row are distinct, as pandas ensures on reading by renaming duplicates.
- Report.Assemble: requires every kept row to share one column list. That always holds for rows kept from one table (`Report.KeptRowsAreAssemblable`). pandas' union of differing key lists, with missing cells filled in, is not modelled.
- Report.TraceHeader: column labels are modelled as strings. When a label is not a `str` (a numeric or date header read by `pd.read_excel`, for example), `"; ".join(list(df.columns))` at app.py:303 raises TypeError, and so does `" | ".join` at app.py:285. The run then stops at the first block that keeps a row. That failure path is not modelled.
- Classifying the same URL twice under the same server behaviour gives the same label by construction, because `Classify` is a function of the URL and the outcome. No separate lemma states it.

=== FILE: batch.dfy ===
/** The chunked run over the table (app.py): the table is cut into
    consecutive blocks of `ChunkSize` rows, every row of a block is handed to
    the row processor, and the kept rows of each block are appended to the
    results once the whole block is done. Inside a block the rows come back
    in completion order, so a block's results are only fixed up to
    permutation. */
module Batch {
  import opened Wrappers

  const ChunkSize: nat := 300

  /** The rows `start <= i < end` of the table. */
  datatype Chunk = Chunk(start: nat, end: nat)

  predicate InChunk(c: Chunk, i: nat) {
    c.start <= i < c.end
  }

  /** `n_chunks`: the number of blocks announced to the user. */
  function ChunkCount(n: nat, c: nat): (k: nat)
    requires c > 0
    ensures n <= c * k
    ensures k > 0 ==> c * (k - 1) < n
  {
    var q := n / c;
    var r := n % c;
    assert n == c * q + r;
    if r != 0 then
      assert c * (q + 1) == c * q + c;
      q + 1
    else
      q
  }

  lemma MulMonotone(c: nat, x: nat, y: nat)
    requires x <= y
    ensures c * x <= c * y
  {
    assert c * y == c * x + c * (y - x);
  }

  lemma MulCancel(c: nat, x: nat, y: nat)
    ensures c * x < c * y ==> x < y
  {
    if y <= x {
      MulMonotone(c, y, x);
    }
  }

  /** The rounded-up quotient is the only count with those two bounds. */
  lemma CeilingIsUnique(n: nat, c: nat, a: nat, b: nat)
    requires c > 0
    requires n <= c * a && (a > 0 ==> c * (a - 1) < n)
    requires n <= c * b && (b > 0 ==> c * (b - 1) < n)
    ensures a == b
  {
    if b > 0 {
      MulCancel(c, b - 1, a);
    }
    if a > 0 {
      MulCancel(c, a - 1, b);
    }
    MulMonotone(c, 0, a);
    MulMonotone(c, 0, b);
  }

  /** When the loop stops after `k` steps of `c`, `k` is the ceiling count. */
  lemma StopsAtCeiling(n: nat, c: nat, k: nat, start: nat)
    requires c > 0 && start == c * k && n <= start
    requires k > 0 ==> start - c < n
    ensures k == ChunkCount(n, c)
    ensures k > 0 ==> c * (k - 1) == start - c
  {
    assert k > 0 ==> c * k == c * (k - 1) + c;
    CeilingIsUnique(n, c, k, ChunkCount(n, c));
  }

  /** The chunks are non-empty and, one after the other, cover `[0, n)`. */
  ghost predicate Tiles(chunks: seq<Chunk>, n: nat) {
    && (|chunks| == 0 ==> n == 0)
    && (|chunks| > 0 ==> chunks[0].start == 0 && chunks[|chunks| - 1].end == n)
    && (forall k :: 0 <= k < |chunks| ==> chunks[k].start < chunks[k].end)
    && (forall j, k :: 0 <= j && k == j + 1 && k < |chunks| ==> chunks[j].end == chunks[k].start)
  }

  /** What holds after `|chunks|` turns of the loop, with `start` its next
      start. */
  ghost predicate Planned(chunks: seq<Chunk>, start: nat, n: nat, c: nat) {
    && start == c * |chunks|
    && (|chunks| == 0 ==> start == 0)
    && (|chunks| > 0 ==> chunks[0].start == 0)
    && (|chunks| > 0 ==> chunks[|chunks| - 1].start == start - c < n)
    && (|chunks| > 0 ==> chunks[|chunks| - 1].end == (if start < n then start else n))
    && (forall k :: 0 <= k < |chunks| ==> chunks[k].start < chunks[k].end <= chunks[k].start + c)
    && (forall j, k :: 0 <= j && k == j + 1 && k < |chunks| ==> chunks[j].end == chunks[k].start)
    && (forall k :: 0 <= k < |chunks| - 1 ==> chunks[k].end - chunks[k].start == c)
  }

  /** One turn of the loop keeps `Planned`. */
  lemma PlanStep(chunks: seq<Chunk>, start: nat, n: nat, c: nat)
    requires c > 0 && Planned(chunks, start, n, c) && start < n
    ensures Planned(chunks + [Chunk(start, if start + c < n then start + c else n)], start + c, n, c)
  {
    assert c * (|chunks| + 1) == c * |chunks| + c;
  }

  /** When the loop stops, the chunks tile `[0, n)` and there are as many as
      announced. */
  lemma PlanDone(chunks: seq<Chunk>, start: nat, n: nat, c: nat)
    requires c > 0 && Planned(chunks, start, n, c) && n <= start
    ensures Tiles(chunks, n)
    ensures |chunks| == ChunkCount(n, c)
    ensures |chunks| > 0 ==> chunks[|chunks| - 1].end - chunks[|chunks| - 1].start == n - c * (|chunks| - 1)
  {
    StopsAtCeiling(n, c, |chunks|, start);
  }

  /** The loop `for start in range(0, n, c)` with `end = min(start + c, n)`. */
  method PlanChunks(n: nat, c: nat) returns (chunks: seq<Chunk>)
    requires c > 0
    ensures Tiles(chunks, n)
    ensures |chunks| == ChunkCount(n, c)
    ensures forall k :: 0 <= k < |chunks| ==> chunks[k].end - chunks[k].start <= c
    ensures forall k :: 0 <= k < |chunks| - 1 ==> chunks[k].end - chunks[k].start == c
    ensures |chunks| > 0 ==> chunks[|chunks| - 1].end - chunks[|chunks| - 1].start == n - c * (|chunks| - 1)
  {
    chunks := [];
    var start := 0;
    while start < n
      invariant Planned(chunks, start, n, c)
    {
      var end := if start + c < n then start + c else n;
      PlanStep(chunks, start, n, c);
      chunks := chunks + [Chunk(start, end)];
      start := start + c;
    }
    PlanDone(chunks, start, n, c);
  }

  /** The loop of the application itself, at its fixed block size. */
  method PlanTable(n: nat) returns (chunks: seq<Chunk>)
    ensures Tiles(chunks, n)
    ensures |chunks| == ChunkCount(n, ChunkSize)
    ensures forall k :: 0 <= k < |chunks| ==> chunks[k].end - chunks[k].start <= ChunkSize
    ensures forall k :: 0 <= k < |chunks| - 1 ==> chunks[k].end - chunks[k].start == ChunkSize
  {
    chunks := PlanChunks(n, ChunkSize);
  }

  /** A few announced counts at the application's block size. */
  lemma ChunkCountAtChunkSize()
    ensures ChunkCount(0, ChunkSize) == 0
    ensures ChunkCount(1, ChunkSize) == 1
    ensures ChunkCount(300, ChunkSize) == 1
    ensures ChunkCount(301, ChunkSize) == 2
    ensures ChunkCount(1000, ChunkSize) == 4
  {
  }

  /** Concatenation of a sequence of blocks. */
  function Flatten<T>(blocks: seq<seq<T>>): seq<T> {
    if |blocks| == 0 then [] else Flatten(blocks[..|blocks| - 1]) + blocks[|blocks| - 1]
  }

  /** `df.iloc[start:end]` for every chunk. */
  function Slices<T>(rows: seq<T>, chunks: seq<Chunk>): (blocks: seq<seq<T>>)
    requires forall k :: 0 <= k < |chunks| ==> chunks[k].start <= chunks[k].end <= |rows|
    ensures |blocks| == |chunks|
  {
    seq(|chunks|, k requires 0 <= k < |chunks| => rows[chunks[k].start..chunks[k].end])
  }

  /** Tiling chunks lie in order inside `[0, n)`. */
  lemma {:induction false} TilesAreOrdered(chunks: seq<Chunk>, n: nat, j: nat, k: nat)
    requires Tiles(chunks, n) && j <= k < |chunks|
    ensures chunks[j].start <= chunks[k].start
    ensures chunks[k].end <= n
    decreases |chunks| - j
  {
    if j < k {
      TilesAreOrdered(chunks, n, j + 1, k);
    } else if k < |chunks| - 1 {
      TilesAreOrdered(chunks, n, k + 1, |chunks| - 1);
      assert chunks[k].end == chunks[k + 1].start;
    }
  }

  lemma TilesStayInside(chunks: seq<Chunk>, n: nat)
    requires Tiles(chunks, n)
    ensures forall k :: 0 <= k < |chunks| ==> chunks[k].start <= chunks[k].end <= n
  {
    forall k | 0 <= k < |chunks|
      ensures chunks[k].end <= n
    {
      TilesAreOrdered(chunks, n, k, k);
    }
  }

  /** The first `m` chunks' rows, one after the other, are the rows before
      the end of chunk `m - 1`. */
  lemma {:induction false} SlicesPrefixReassemble<T>(rows: seq<T>, chunks: seq<Chunk>, m: nat)
    requires Tiles(chunks, |rows|) && 0 < m <= |chunks|
    ensures forall k :: 0 <= k < |chunks| ==> chunks[k].start <= chunks[k].end <= |rows|
    ensures Flatten(Slices(rows, chunks)[..m]) == rows[..chunks[m - 1].end]
  {
    TilesStayInside(chunks, |rows|);
    var blocks := Slices(rows, chunks);
    if m == 1 {
      assert blocks[..1][..0] == [];
    } else {
      SlicesPrefixReassemble(rows, chunks, m - 1);
      assert blocks[..m][..m - 1] == blocks[..m - 1];
      assert rows[..chunks[m - 1].end] == rows[..chunks[m - 2].end] + rows[chunks[m - 1].start..chunks[m - 1].end];
    }
  }

  /** Every row is in exactly one chunk, in table order: putting the chunks
      back together gives the table. */
  lemma TilesReassemble<T>(rows: seq<T>, chunks: seq<Chunk>)
    requires Tiles(chunks, |rows|)
    ensures forall k :: 0 <= k < |chunks| ==> chunks[k].start <= chunks[k].end <= |rows|
    ensures Flatten(Slices(rows, chunks)) == rows
  {
    TilesStayInside(chunks, |rows|);
    if |chunks| > 0 {
      SlicesPrefixReassemble(rows, chunks, |chunks|);
      assert Slices(rows, chunks)[..|chunks|] == Slices(rows, chunks);
    }
  }

  /** No row index belongs to two chunks. */
  lemma ChunksAreDisjoint(chunks: seq<Chunk>, n: nat, j: nat, k: nat, i: nat)
    requires Tiles(chunks, n) && j < k < |chunks|
    requires InChunk(chunks[k], i)
    ensures !InChunk(chunks[j], i)
  {
    TilesAreOrdered(chunks, n, j + 1, k);
  }

  lemma {:induction false} RowInSomeEarlierChunk(chunks: seq<Chunk>, n: nat, i: nat, m: nat)
    requires Tiles(chunks, n) && 0 < m <= |chunks| && i < chunks[m - 1].end
    ensures exists k :: 0 <= k < m && InChunk(chunks[k], i)
  {
    if i < chunks[m - 1].start {
      assert m > 1;
      assert chunks[m - 2].end == chunks[m - 1].start;
      RowInSomeEarlierChunk(chunks, n, i, m - 1);
    }
  }

  /** Every row index of the table lies in exactly one chunk, so every row
      is processed exactly once. */
  lemma EachRowInExactlyOneChunk(chunks: seq<Chunk>, n: nat, i: nat)
    requires Tiles(chunks, n) && i < n
    ensures exists k :: 0 <= k < |chunks| && InChunk(chunks[k], i)
    ensures forall j, k :: 0 <= j < |chunks| && 0 <= k < |chunks| && InChunk(chunks[j], i) && InChunk(chunks[k], i) ==> j == k
  {
    RowInSomeEarlierChunk(chunks, n, i, |chunks|);
    forall j, k | 0 <= j < |chunks| && 0 <= k < |chunks| && InChunk(chunks[j], i) && InChunk(chunks[k], i)
      ensures j == k
    {
      if j < k {
        ChunksAreDisjoint(chunks, n, j, k, i);
      } else if k < j {
        ChunksAreDisjoint(chunks, n, k, j, i);
      }
    }
  }

  /** The non-`None` results of `process` over `rows`, in row order. */
  function Collect<T, U>(rows: seq<T>, process: T -> Option<U>): (r: seq<U>)
    ensures |r| <= |rows|
    ensures forall u :: u in r ==> exists i :: 0 <= i < |rows| && process(rows[i]) == Some(u)
    ensures forall i :: 0 <= i < |rows| && process(rows[i]).Some? ==> process(rows[i]).value in r
  {
    if |rows| == 0 then []
    else
      Collect(rows[..|rows| - 1], process)
      + (match process(rows[|rows| - 1]) case Some(u) => [u] case None => [])
  }

  /** Results that are the collected rows up to order hold exactly the
      kept values: each comes from some row, and each row's kept value is
      among them. */
  lemma CollectedMembers<T, U>(rows: seq<T>, results: seq<U>, process: T -> Option<U>)
    requires multiset(results) == multiset(Collect(rows, process))
    ensures forall u :: u in results ==> exists i :: 0 <= i < |rows| && process(rows[i]) == Some(u)
    ensures forall i :: 0 <= i < |rows| && process(rows[i]).Some? ==> process(rows[i]).value in results
  {
    forall u | u in results
      ensures u in Collect(rows, process)
    {
      assert u in multiset(results);
    }
    forall i | 0 <= i < |rows| && process(rows[i]).Some?
      ensures process(rows[i]).value in results
    {
      assert process(rows[i]).value in multiset(Collect(rows, process));
    }
  }

  lemma {:induction false} CollectAppend<T, U>(a: seq<T>, b: seq<T>, process: T -> Option<U>)
    ensures Collect(a + b, process) == Collect(a, process) + Collect(b, process)
    decreases |b|
  {
    if |b| == 0 {
      assert a + b == a;
    } else {
      assert (a + b)[..|a + b| - 1] == a + b[..|b| - 1];
      CollectAppend(a, b[..|b| - 1], process);
    }
  }

  lemma FlattenLast<U>(blocks: seq<seq<U>>)
    requires |blocks| > 0
    ensures Flatten(blocks) == Flatten(blocks[..|blocks| - 1]) + blocks[|blocks| - 1]
  {
  }

  /** Collecting block by block, each block's results in any order, gives the
      multiset of collecting the concatenated blocks. */
  lemma {:induction false} CollectByBlocks<T, U>(parts: seq<seq<T>>, blocks: seq<seq<U>>, process: T -> Option<U>)
    requires |blocks| == |parts|
    requires forall k :: 0 <= k < |parts| ==> multiset(blocks[k]) == multiset(Collect(parts[k], process))
    ensures multiset(Flatten(blocks)) == multiset(Collect(Flatten(parts), process))
    decreases |parts|
  {
    if |parts| > 0 {
      var m := |parts| - 1;
      CollectByBlocks(parts[..m], blocks[..m], process);
      FlattenLast(parts);
      FlattenLast(blocks);
      CollectAppend(Flatten(parts[..m]), parts[m], process);
    }
  }

  /** Whatever order the rows of each block complete in, the results of the
      whole run hold every kept row exactly once: the same multiset, and so
      the same count, as processing the table row by row. */
  lemma RunKeepsEachFlaggedRowOnce<T, U>(rows: seq<T>, chunks: seq<Chunk>, blocks: seq<seq<U>>, process: T -> Option<U>)
    requires Tiles(chunks, |rows|)
    requires |blocks| == |chunks|
    requires forall k :: 0 <= k < |chunks| ==>
               && chunks[k].start <= chunks[k].end <= |rows|
               && multiset(blocks[k]) == multiset(Collect(rows[chunks[k].start..chunks[k].end], process))
    ensures multiset(Flatten(blocks)) == multiset(Collect(rows, process))
    ensures |Flatten(blocks)| == |Collect(rows, process)|
  {
    var parts := Slices(rows, chunks);
    TilesReassemble(rows, chunks);
    CollectByBlocks(parts, blocks, process);
    assert |multiset(Flatten(blocks))| == |Flatten(blocks)|;
    assert |multiset(Collect(rows, process))| == |Collect(rows, process)|;
  }

}

=== FILE: classifier.dfy ===
/** The decision logic of `clasificar_url` (app.py). The HTTP round trip is
    replaced by its outcome: either a response (after redirects) or one of
    the three exception kinds the code catches. */
module Classifier {
  import opened Wrappers
  import opened Text
  import opened Decimal

  /** What `session.get(url)` produced. A missing header is `None`, which
      the code reads as the empty string. `finalPath` is the path of the URL
      after redirects; `body` is the decoded response text. */
  datatype Outcome =
    | Response(status: int, contentType: Option<string>, contentDisposition: Option<string>,
               body: string, finalPath: string)
    | ConnectError
    | Timeout
    | OtherException

  /** The closed set of classifications. */
  datatype Label =
    | Operational
    | RedirectsHome
    | RequiresAuth
    | Forbidden
    | NotFound
    | ServerError
    | OtherHttp(code: int)
    | NetworkFailure
    | NoResponse
    | Unknown

  const PortalDomain: string := "portaltransparencia.cl"
  const OperationalText: string := "Enlace operativo y funcional"
  const OtherHttpPrefix: string := "Otro error HTTP: "

  /** The text the code returns for each classification. */
  function Render(l: Label): (r: string)
    ensures |r| > 0
    ensures l.OtherHttp? <==> OccursAt(r, OtherHttpPrefix, 0)
  {
    var r := match l
    case Operational => OperationalText
    case RedirectsHome => "Enlace dirige al Home"
    case RequiresAuth => "Enlace requiere autenticación de usuario"
    case Forbidden => "Acceso prohibido"
    case NotFound => "Error 404 página no operativa"
    case ServerError => "Error del servidor (5XX)"
    case OtherHttp(code) => OtherHttpPrefix + IntToDecimal(code)
    case NetworkFailure => "No se pudo acceder: problema de DNS o red"
    case NoResponse => "Sin respuesta; probable operatividad"
    case Unknown => "Error desconocido";
    assert l.OtherHttp? || r[0] != OtherHttpPrefix[0];
    r
  }

  /** `headers.get(name, "")`. */
  function HeaderOrEmpty(h: Option<string>): string {
    match h
    case Some(v) => v
    case None => ""
  }

  /** The transparency-portal test: a substring test on the URL as given,
      not on the host it resolved to. */
  predicate IsPortalUrl(url: string) {
    Contains(url, PortalDomain)
  }

  /** The response is a download: a PDF or binary content type, or an
      attachment disposition. */
  predicate IsDownload(contentType: Option<string>, contentDisposition: Option<string>) {
    var ctype := HeaderOrEmpty(contentType);
    || Contains(ctype, "application/pdf")
    || Contains(ctype, "octet-stream")
    || Contains(HeaderOrEmpty(contentDisposition), "attachment")
  }

  /** The lower-cased body is an HTML page that says access was denied. */
  predicate IsAccessDenied(body: string) {
    var low := AsciiLower(body);
    Contains(low, "<html") && Contains(low, "acceso denegado")
  }

  /** The final path, with its slashes stripped, names the site's home. */
  predicate IsHomePath(path: string) {
    var p := Strip(path, '/');
    p == "" || p == "index.html" || p == "home"
  }

  /** The portal rules decide the label before the status is looked at. */
  predicate PortalDecides(url: string, o: Outcome)
    requires o.Response?
  {
    IsPortalUrl(url) && (IsDownload(o.contentType, o.contentDisposition) || IsAccessDenied(o.body))
  }

  /** `clasificar_url(url)` once the request has produced `outcome`. */
  function Classify(url: string, outcome: Outcome): (l: Label)
    ensures l == NetworkFailure <==> outcome.ConnectError?
    ensures l == NoResponse <==> outcome.Timeout?
    ensures l == Unknown <==> outcome.OtherException?
    ensures l.OtherHttp? ==> outcome.Response? && l.code == outcome.status
    ensures l.OtherHttp? ==> l.code !in {200, 401, 403, 404} && l.code < 500
  {
    match outcome
    case ConnectError => NetworkFailure
    case Timeout => NoResponse
    case OtherException => Unknown
    case Response(status, ctype, disposition, body, path) =>
      if IsPortalUrl(url) && IsDownload(ctype, disposition) then Operational
      else if IsPortalUrl(url) && IsAccessDenied(body) then Forbidden
      else if status == 200 then (if IsHomePath(path) then RedirectsHome else Operational)
      else if status == 401 then RequiresAuth
      else if status == 403 then Forbidden
      else if status == 404 then NotFound
      else if status >= 500 then ServerError
      else OtherHttp(status)
  }

  /** Portal downloads are operational whatever the status; a portal page
      that denies access is forbidden whatever the status. */
  lemma PortalRulesTakePrecedence(url: string, o: Outcome)
    requires o.Response? && IsPortalUrl(url)
    ensures IsDownload(o.contentType, o.contentDisposition) ==> Classify(url, o) == Operational
    ensures !IsDownload(o.contentType, o.contentDisposition) && IsAccessDenied(o.body) ==> Classify(url, o) == Forbidden
  {
  }

  /** When the portal rules do not decide, the status alone does. */
  lemma StatusDecidesOtherwise(url: string, o: Outcome)
    requires o.Response? && !PortalDecides(url, o)
    ensures o.status == 200 && IsHomePath(o.finalPath) ==> Classify(url, o) == RedirectsHome
    ensures o.status == 200 && !IsHomePath(o.finalPath) ==> Classify(url, o) == Operational
    ensures o.status == 401 ==> Classify(url, o) == RequiresAuth
    ensures o.status == 403 ==> Classify(url, o) == Forbidden
    ensures o.status == 404 ==> Classify(url, o) == NotFound
    ensures o.status >= 500 ==> Classify(url, o) == ServerError
    ensures o.status !in {200, 401, 403, 404} && o.status < 500 ==> Classify(url, o) == OtherHttp(o.status)
  {
  }

  /** Exactly when a link counts as working. */
  lemma OperationalExactly(url: string, o: Outcome)
    ensures Classify(url, o) == Operational <==>
              && o.Response?
              && ((IsPortalUrl(url) && IsDownload(o.contentType, o.contentDisposition))
                  || (o.status == 200 && !IsHomePath(o.finalPath) && !PortalDecides(url, o)))
  {
  }

  /** Exactly when a link is reported as forbidden: a portal denial page, or
      a 403 that no portal rule overrides. */
  lemma ForbiddenExactly(url: string, o: Outcome)
    ensures Classify(url, o) == Forbidden <==>
              && o.Response?
              && !(IsPortalUrl(url) && IsDownload(o.contentType, o.contentDisposition))
              && ((IsPortalUrl(url) && IsAccessDenied(o.body)) || o.status == 403)
  {
  }

  /** The texts of `OtherHttp` carry their status code, and only they start
      with the `OtherHttp` prefix. */
  lemma OtherHttpTextCarriesCode(l: Label)
    ensures l.OtherHttp? <==> OccursAt(Render(l), OtherHttpPrefix, 0)
    ensures l.OtherHttp? ==> ParseInt(Render(l)[|OtherHttpPrefix|..]) == Some(l.code)
  {
    if l.OtherHttp? {
      assert Render(l)[|OtherHttpPrefix|..] == IntToDecimal(l.code);
      ParseIntOfDecimal(l.code);
    } else {
      assert Render(l)[0] != OtherHttpPrefix[0];
    }
  }

  /** Different classifications have different texts, so comparing texts,
      as the row processor does, is comparing classifications. */
  lemma RenderInjective(a: Label, b: Label)
    ensures Render(a) == Render(b) ==> a == b
  {
    if Render(a) == Render(b) {
      OtherHttpTextCarriesCode(a);
      OtherHttpTextCarriesCode(b);
    }
  }

  /** Only the operational classification renders as the operational text. */
  lemma RenderOperationalOnly(l: Label)
    ensures Render(l) == OperationalText <==> l == Operational
  {
    RenderInjective(l, Operational);
  }

}

=== FILE: decimal.dfy ===
/** Python's `f"{n}"` for integers, with `int(s)` as its partner. */
module Decimal {
  import opened Wrappers

  predicate IsDigit(c: char) {
    '0' <= c <= '9'
  }

  function DigitValue(c: char): (d: nat)
    requires IsDigit(c)
    ensures d < 10
  {
    c as int - '0' as int
  }

  function DigitChar(d: nat): (c: char)
    requires d < 10
    ensures IsDigit(c) && DigitValue(c) == d
  {
    ('0' as int + d) as char
  }

  /** Decimal digits of `n`, most significant first, without leading zeros. */
  function NatToDecimal(n: nat): (s: string)
    ensures |s| > 0 && IsDigit(s[0])
    ensures forall k :: 0 <= k < |s| ==> IsDigit(s[k])
    ensures s[0] == '0' <==> n == 0
  {
    if n < 10 then [DigitChar(n)] else NatToDecimal(n / 10) + [DigitChar(n % 10)]
  }

  /** `f"{i}"`: a minus sign for negative numbers, then the digits. */
  function IntToDecimal(i: int): (r: string)
    ensures |r| > 0 && (r[0] == '-' <==> i < 0)
    ensures forall k :: 0 < k < |r| ==> IsDigit(r[k])
    ensures r[0] == '0' <==> i == 0
    ensures i < 0 ==> |r| > 1 && r[1] != '0'
  {
    if i < 0 then "-" + NatToDecimal(-i) else NatToDecimal(i)
  }

  /** Value of a run of decimal digits, or None when a character is not a
      digit. */
  function ParseDigits(s: string): Option<nat> {
    if |s| == 0 then Some(0)
    else match ParseDigits(s[..|s| - 1])
      case None => None
      case Some(v) => if IsDigit(s[|s| - 1]) then Some(v * 10 + DigitValue(s[|s| - 1])) else None
  }

  /** `int(s)` restricted to an optional minus sign followed by digits. */
  function ParseInt(s: string): Option<int> {
    if |s| > 1 && s[0] == '-' then
      match ParseDigits(s[1..])
      case None => None
      case Some(v) => Some(0 - v)
    else if |s| > 0 then
      match ParseDigits(s)
      case None => None
      case Some(v) => Some(v as int)
    else None
  }

  lemma {:induction false} DigitsOfNatRoundTrip(n: nat)
    ensures ParseDigits(NatToDecimal(n)) == Some(n)
  {
    var s := NatToDecimal(n);
    if n < 10 {
      assert s[..|s| - 1] == [];
    } else {
      assert s[..|s| - 1] == NatToDecimal(n / 10);
      DigitsOfNatRoundTrip(n / 10);
    }
  }

  lemma NegativeRoundTrip(i: int)
    requires i < 0
    ensures ParseInt(IntToDecimal(i)) == Some(i)
  {
    var s := IntToDecimal(i);
    var d := NatToDecimal(-i);
    assert s == "-" + d;
    assert s[1..] == d;
    assert |s| > 1 && s[0] == '-';
    DigitsOfNatRoundTrip(-i);
  }

  lemma UnsignedRoundTrip(i: int)
    requires i >= 0
    ensures ParseInt(IntToDecimal(i)) == Some(i)
  {
    var s := IntToDecimal(i);
    assert s == NatToDecimal(i);
    assert s[0] != '-';
    DigitsOfNatRoundTrip(i);
  }

  /** Reading back the rendered number gives the number. */
  lemma ParseIntOfDecimal(i: int)
    ensures ParseInt(IntToDecimal(i)) == Some(i)
  {
    if i < 0 {
      NegativeRoundTrip(i);
    } else {
      UnsignedRoundTrip(i);
    }
  }

  /** Distinct numbers render differently. */
  lemma IntToDecimalInjective(a: int, b: int)
    ensures IntToDecimal(a) == IntToDecimal(b) ==> a == b
  {
    ParseIntOfDecimal(a);
    ParseIntOfDecimal(b);
  }

}

=== FILE: report.dfy ===
/** Report assembly (app.py): the kept rows become one table whose reason
    column comes first and whose last column is a trace of the original
    row, headed by the original column names joined with `"; "`. */
module Report {
  import opened Wrappers
  import opened Text
  import opened RowProcessor

  /** `xs.index(x)`: the first position of `x`. */
  function IndexOf<T(==)>(xs: seq<T>, x: T): (i: nat)
    requires x in xs
    ensures i < |xs| && xs[i] == x && x !in xs[..i]
  {
    if xs[0] == x then 0
    else
      var j := IndexOf(xs[1..], x);
      assert xs[..j + 1] == [xs[0]] + xs[1..][..j];
      j + 1
  }

  /** Only the first occurrence has nothing equal to it before it. */
  lemma IndexOfIsFirst<T>(xs: seq<T>, x: T, i: nat)
    requires i < |xs| && xs[i] == x && x !in xs[..i]
    ensures IndexOf(xs, x) == i
  {
  }

  /** The elements of `xs` other than `x`, in their order. */
  function Without<T(==)>(xs: seq<T>, x: T): seq<T> {
    if |xs| == 0 then [] else (if xs[0] == x then [] else [xs[0]]) + Without(xs[1..], x)
  }

  lemma {:induction false} WithoutAppend<T>(a: seq<T>, b: seq<T>, x: T)
    ensures Without(a + b, x) == Without(a, x) + Without(b, x)
  {
    if |a| == 0 {
      assert a + b == b;
    } else {
      var h: seq<T> := if a[0] == x then [] else [a[0]];
      assert (a + b)[0] == a[0] && (a + b)[1..] == a[1..] + b;
      assert Without(a + b, x) == h + Without(a[1..] + b, x);
      WithoutAppend(a[1..], b, x);
      assert Without(a, x) == h + Without(a[1..], x);
    }
  }

  /** Removing `x` around one occurrence of it. */
  lemma WithoutDrops<T>(p: seq<T>, q: seq<T>, x: T)
    ensures Without(p + [x] + q, x) == Without(p, x) + Without(q, x)
  {
    calc {
      Without(p + [x] + q, x);
    == { WithoutAppend(p + [x], q, x); }
      Without(p + [x], x) + Without(q, x);
    == { WithoutAppend(p, [x], x); }
      Without(p, x) + Without([x], x) + Without(q, x);
    == { assert Without([x], x) == []; }
      Without(p, x) + Without(q, x);
    }
  }

  lemma {:induction false} WithoutCommutes<T>(xs: seq<T>, x: T, y: T)
    ensures Without(Without(xs, x), y) == Without(Without(xs, y), x)
  {
    if |xs| > 0 {
      var hx: seq<T> := if xs[0] == x then [] else [xs[0]];
      var hy: seq<T> := if xs[0] == y then [] else [xs[0]];
      WithoutCommutes(xs[1..], x, y);
      WithoutAppend(hx, Without(xs[1..], x), y);
      WithoutAppend(hy, Without(xs[1..], y), x);
      assert Without(hx, y) == Without(hy, x);
    }
  }

  /** Taking `x` out and putting it in front permutes the sequence and
      keeps the other elements in order. */
  lemma FrontIsPermutation<T>(before: seq<T>, after: seq<T>, x: T)
    ensures multiset([x] + before + after) == multiset(before + [x] + after)
    ensures Without([x] + before + after, x) == Without(before + [x] + after, x)
  {
    assert multiset([x] + before + after) == multiset(before + [x] + after);
    calc {
      Without([x] + before + after, x);
    == { assert [x] + before + after == [] + [x] + (before + after); }
      Without([] + [x] + (before + after), x);
    == { WithoutDrops([], before + after, x); }
      Without([], x) + Without(before + after, x);
    == { WithoutAppend(before, after, x); }
      Without(before, x) + Without(after, x);
    == { WithoutDrops(before, after, x); }
      Without(before + [x] + after, x);
    }
  }

  /** Taking `x` out and putting it last permutes the sequence and keeps the
      other elements in order. */
  lemma EndIsPermutation<T>(before: seq<T>, after: seq<T>, x: T)
    ensures multiset(before + after + [x]) == multiset(before + [x] + after)
    ensures Without(before + after + [x], x) == Without(before + [x] + after, x)
  {
    assert multiset(before + after + [x]) == multiset(before + [x] + after);
    calc {
      Without(before + after + [x], x);
    == { assert before + after + [x] == (before + after) + [x] + []; }
      Without((before + after) + [x] + [], x);
    == { WithoutDrops(before + after, [], x); }
      Without(before + after, x) + Without([], x);
    == { WithoutAppend(before, after, x); }
      Without(before, x) + Without(after, x);
    == { WithoutDrops(before, after, x); }
      Without(before + [x] + after, x);
    }
  }

  /** `cols.insert(0, cols.pop(cols.index(x)))`. */
  function MoveToFront<T(==)>(xs: seq<T>, x: T): (r: seq<T>)
    requires x in xs
    ensures |r| == |xs| && r[0] == x
    ensures multiset(r) == multiset(xs)
    ensures Without(r, x) == Without(xs, x)
  {
    var i := IndexOf(xs, x);
    var before := xs[..i];
    var after := xs[i + 1..];
    assert xs == before + [x] + after;
    FrontIsPermutation(before, after, x);
    [x] + before + after
  }

  /** `cols.append(cols.pop(cols.index(x)))`. */
  function MoveToEnd<T(==)>(xs: seq<T>, x: T): (r: seq<T>)
    requires x in xs
    ensures |r| == |xs| && r[|r| - 1] == x
    ensures multiset(r) == multiset(xs)
    ensures Without(r, x) == Without(xs, x)
    ensures xs[0] != x ==> r[0] == xs[0]
  {
    var i := IndexOf(xs, x);
    var before := xs[..i];
    var after := xs[i + 1..];
    assert xs == before + [x] + after;
    EndIsPermutation(before, after, x);
    before + after + [x]
  }

  /** The finished report: an explicit "all compliant" result when nothing
      was kept, otherwise a table. */
  datatype Report = AllCompliant | Table(columns: seq<string>, rows: seq<map<string, string>>)

  const TraceSeparator: string := "; "

  /** `encabezado_ruta`: the original column names joined with `"; "`. */
  function TraceHeader(original: seq<string>): string {
    Join(original, TraceSeparator)
  }

  /** A one-column table's trace header is that column's name, so the
      trace column replaces it (app.py, lines 303-304). */
  lemma SingleColumnTraceHeader(name: string)
    ensures TraceHeader([name]) == name
    ensures WithColumn([name], TraceHeader([name])) == [name]
  {
  }

  /** The trace cell of a row: its values in original column order, joined. */
  function TraceValue(cells: map<string, string>, original: seq<string>): string
    requires forall c :: c in original ==> c in cells
  {
    Join(seq(|original|, i requires 0 <= i < |original| => cells[original[i]]), TraceSeparator)
  }

  /** Adding a column to a frame: assigning to an existing name replaces it
      in place. */
  function WithColumn(columns: seq<string>, name: string): (r: seq<string>)
    ensures columns <= r && name in r && |r| <= |columns| + 1
    ensures forall x :: x in r ==> x in columns || x == name
    ensures name in columns <==> |r| == |columns|
    ensures name !in columns ==> |r| == |columns| + 1 && r[|columns|] == name
  {
    if name in columns then columns else columns + [name]
  }

  /** The kept rows share one column list, hold the reason column and every
      original column. */
  ghost predicate Assemblable(original: seq<string>, results: seq<Row>) {
    forall i :: 0 <= i < |results| ==>
      && results[i].Valid()
      && results[i].columns == results[0].columns
      && ReasonKey in results[i].cells
      && forall c :: c in original ==> c in results[i].cells
  }

  /** `out` is the kept row `row` with its trace cell added. */
  ghost predicate TracedRow(out: map<string, string>, row: Row, original: seq<string>)
    requires forall c :: c in original ==> c in row.cells
  {
    var header := TraceHeader(original);
    && out.Keys == row.cells.Keys + {header}
    && out[header] == TraceValue(row.cells, original)
    && forall k :: k in row.cells && k != header ==> out[k] == row.cells[k]
  }

  /** The column order of the final table (app.py, lines 307-312): the
      frame's columns with the trace column assigned, the reason moved to
      the front, then the trace moved to the end. */
  function ReportColumns(columns: seq<string>, header: string): (r: seq<string>)
    requires ReasonKey in columns
    ensures |r| > 0 && r[|r| - 1] == header
    ensures header != ReasonKey ==> r[0] == ReasonKey
    ensures multiset(r) == multiset(WithColumn(columns, header))
    ensures Without(Without(r, ReasonKey), header) == Without(Without(columns, ReasonKey), header)
  {
    var framed := WithColumn(columns, header);
    var front := MoveToFront(framed, ReasonKey);
    assert header in multiset(framed);
    assert header in multiset(front);
    var ordered := MoveToEnd(front, header);
    assert Without(framed, header) == Without(columns, header) by {
      if header !in columns {
        WithoutAppend(columns, [header], header);
      }
    }
    WithoutCommutes(ordered, ReasonKey, header);
    WithoutCommutes(front, ReasonKey, header);
    WithoutCommutes(framed, ReasonKey, header);
    WithoutCommutes(columns, ReasonKey, header);
    ordered
  }

  /** The kept rows with their trace cells (app.py, lines 303-306). */
  function TraceRows(original: seq<string>, results: seq<Row>): (rows: seq<map<string, string>>)
    requires Assemblable(original, results)
    ensures |rows| == |results|
    ensures forall i :: 0 <= i < |results| ==> TracedRow(rows[i], results[i], original)
  {
    var rows := seq(|results|, i requires 0 <= i < |results| => Traced(results[i], original));
    TracedRowsAreTraced(original, results, rows);
    rows
  }

  /** One kept row with its trace cell added. */
  function Traced(row: Row, original: seq<string>): map<string, string>
    requires forall c :: c in original ==> c in row.cells
  {
    row.cells[TraceHeader(original) := TraceValue(row.cells, original)]
  }

  lemma TracedRowsAreTraced(original: seq<string>, results: seq<Row>, rows: seq<map<string, string>>)
    requires forall i :: 0 <= i < |results| ==> forall c :: c in original ==> c in results[i].cells
    requires |rows| == |results|
    requires forall i :: 0 <= i < |results| ==> rows[i] == Traced(results[i], original)
    ensures forall i :: 0 <= i < |results| ==> TracedRow(rows[i], results[i], original)
  {
  }

  /** The final table built from all kept rows. */
  function Assemble(original: seq<string>, results: seq<Row>): (rep: Report)
    requires Assemblable(original, results)
    ensures rep.AllCompliant? <==> |results| == 0
    ensures rep.Table? ==> |rep.rows| == |results| && |rep.columns| > 0
    ensures rep.Table? ==> rep.columns[|rep.columns| - 1] == TraceHeader(original)
    ensures rep.Table? && TraceHeader(original) != ReasonKey ==> rep.columns[0] == ReasonKey
    ensures rep.Table? ==> multiset(rep.columns) == multiset(WithColumn(results[0].columns, TraceHeader(original)))
    ensures rep.Table? ==>
              Without(Without(rep.columns, ReasonKey), TraceHeader(original))
              == Without(Without(results[0].columns, ReasonKey), TraceHeader(original))
    ensures rep.Table? ==> forall i :: 0 <= i < |results| ==> TracedRow(rep.rows[i], results[i], original)
  {
    if |results| == 0 then AllCompliant
    else Table(ReportColumns(results[0].columns, TraceHeader(original)), TraceRows(original, results))
  }

  /** The rows the row processor keeps from one table can be assembled. */
  lemma KeptRowsAreAssemblable(original: seq<string>, rows: seq<Row>, results: seq<Row>, classify: string -> string)
    requires forall i :: 0 <= i < |rows| ==> rows[i].Valid() && rows[i].columns == original
    requires forall j :: 0 <= j < |results| ==>
               exists i :: 0 <= i < |rows| && rows[i].Valid() && ProcessRow(rows[i], classify) == Some(results[j])
    ensures Assemblable(original, results)
    ensures forall j :: 0 <= j < |results| ==> results[j].columns == AnnotatedColumns(original)
  {
    forall j | 0 <= j < |results|
      ensures results[j].Valid() && results[j].columns == AnnotatedColumns(original)
      ensures ReasonKey in results[j].cells
      ensures forall c :: c in original ==> c in results[j].cells
    {
      var i :| 0 <= i < |rows| && rows[i].Valid() && ProcessRow(rows[i], classify) == Some(results[j]);
      assert forall c :: c in original ==> c in rows[i].cells;
    }
  }

  /** Moving the reason, last of the annotated columns, to the front. */
  lemma ReasonMovesToFront(original: seq<string>, header: string)
    requires UrlKey !in original && ReasonKey !in original && header != ReasonKey
    ensures MoveToFront(original + [UrlKey, ReasonKey, header], ReasonKey) == [ReasonKey] + original + [UrlKey, header]
  {
    var n := |original|;
    var framed := original + [UrlKey, ReasonKey, header];
    assert framed[..n + 1] == original + [UrlKey];
    IndexOfIsFirst(framed, ReasonKey, n + 1);
    assert framed[..n + 1] + framed[n + 2..] == original + [UrlKey, header];
  }

  /** The trace header, already last and nowhere else, stays where it is. */
  lemma TraceStaysLast(original: seq<string>, header: string)
    requires header !in original + [UrlKey, ReasonKey]
    ensures MoveToEnd([ReasonKey] + original + [UrlKey, header], header) == [ReasonKey] + original + [UrlKey, header]
  {
    var n := |original|;
    var front := [ReasonKey] + original + [UrlKey, header];
    assert front[..n + 2] == [ReasonKey] + original + [UrlKey];
    IndexOfIsFirst(front, header, n + 2);
    assert front[..n + 2] + front[n + 3..] == [ReasonKey] + original + [UrlKey];
  }

  lemma MovesOnAnnotatedColumns(original: seq<string>, header: string)
    requires UrlKey !in original && ReasonKey !in original
    requires header !in original + [UrlKey, ReasonKey]
    ensures ReportColumns(original + [UrlKey, ReasonKey], header) == [ReasonKey] + original + [UrlKey, header]
  {
    assert header != ReasonKey by {
      assert ReasonKey in original + [UrlKey, ReasonKey];
    }
    assert WithColumn(original + [UrlKey, ReasonKey], header) == original + [UrlKey, ReasonKey, header];
    ReasonMovesToFront(original, header);
    TraceStaysLast(original, header);
  }

  /** When the table's column names collide with none of the added ones, the
      report reads: reason, the original columns, the detected URL, the
      trace. */
  lemma ReportLayout(original: seq<string>, results: seq<Row>)
    requires Assemblable(original, results) && |results| > 0
    requires results[0].columns == original + [UrlKey, ReasonKey]
    requires UrlKey !in original && ReasonKey !in original
    requires TraceHeader(original) !in original + [UrlKey, ReasonKey]
    ensures Assemble(original, results).columns == [ReasonKey] + original + [UrlKey, TraceHeader(original)]
  {
    MovesOnAnnotatedColumns(original, TraceHeader(original));
  }

}

=== FILE: row_processor.dfy ===
/** `procesar_fila` (app.py): find the first field holding a URL, classify
    it, and keep the row only when the link is not operational. */
module RowProcessor {
  import opened Wrappers
  import opened UrlExtractor
  import opened Classifier

  const UrlKey: string := "URL detectada"
  const ReasonKey: string := "Motivo de incumplimiento"

  /** One table row: the column names in table order and, for each, the
      `str()` text of its cell. */
  datatype Row = Row(columns: seq<string>, cells: map<string, string>) {

    /** Column names are distinct and are exactly the keys of the cells. */
    predicate Valid() {
      && (forall i, j :: 0 <= i < j < |columns| ==> columns[i] != columns[j])
      && (forall c :: c in cells ==> c in columns)
      && (forall c :: c in columns ==> c in cells)
    }

    /** `fila[key] = value` on a dict: an existing key keeps its place, a
        new one goes last. */
    function Put(key: string, value: string): (r: Row)
      requires Valid()
      ensures r.Valid()
      ensures key in r.cells && r.cells[key] == value
      ensures forall k :: k in cells && k != key ==> k in r.cells && r.cells[k] == cells[k]
      ensures columns <= r.columns && |r.columns| <= |columns| + 1
      ensures key in columns <==> |r.columns| == |columns|
    {
      Row(if key in columns then columns else columns + [key], cells[key := value])
    }
  }

  /** The URL the extractor finds in field `j`. */
  function FieldUrl(row: Row, j: nat): Option<string>
    requires row.Valid() && j < |row.columns|
  {
    ExtractUrl(row.cells[row.columns[j]])
  }

  /** No field from `from` up to `to` yields a URL. */
  ghost predicate NoUrlIn(row: Row, from: nat, to: nat)
    requires row.Valid() && from <= to <= |row.columns|
  {
    forall j :: from <= j < to ==> FieldUrl(row, j).None?
  }

  /** Index of the first field, from `from` on, in which a URL is found. */
  function FirstUrlField(row: Row, from: nat): (r: Option<nat>)
    requires row.Valid() && from <= |row.columns|
    decreases |row.columns| - from
    ensures r.Some? ==> from <= r.value < |row.columns| && FieldUrl(row, r.value).Some? && NoUrlIn(row, from, r.value)
    ensures r.None? ==> NoUrlIn(row, from, |row.columns|)
  {
    if from == |row.columns| then None
    else if FieldUrl(row, from).Some? then Some(from)
    else FirstUrlField(row, from + 1)
  }

  /** The `url_detectada` of the loop over the fields: the URL of the first
      field that yields one, or none when no field does. */
  function DetectedUrl(row: Row): (r: Option<string>)
    requires row.Valid()
    ensures r.None? <==> NoUrlIn(row, 0, |row.columns|)
    ensures r.Some? ==> exists j :: 0 <= j < |row.columns| && FieldUrl(row, j) == r && NoUrlIn(row, 0, j)
  {
    match FirstUrlField(row, 0)
    case None => None
    case Some(j) => FieldUrl(row, j)
  }

  /** The column list of an annotated row: the URL column, then the reason
      column, each appended unless the row already has it. */
  function AnnotatedColumns(columns: seq<string>): seq<string> {
    var withUrl := if UrlKey in columns then columns else columns + [UrlKey];
    if ReasonKey in withUrl then withUrl else withUrl + [ReasonKey]
  }

  /** `out` is `row` with the detected URL and the reason set (added or
      overwritten) and every other field unchanged. */
  ghost predicate Annotates(row: Row, out: Row, url: string, reason: string) {
    && out.Valid()
    && out.cells.Keys == row.cells.Keys + {UrlKey, ReasonKey}
    && out.cells[UrlKey] == url
    && out.cells[ReasonKey] == reason
    && (forall k :: k in row.cells && k != UrlKey && k != ReasonKey ==> out.cells[k] == row.cells[k])
    && row.columns <= out.columns
    && out.columns == AnnotatedColumns(row.columns)
  }

  lemma AnnotationOfRow(row: Row, url: string, reason: string)
    requires row.Valid()
    ensures Annotates(row, row.Put(UrlKey, url).Put(ReasonKey, reason), url, reason)
  {
    var once := row.Put(UrlKey, url);
    var out := once.Put(ReasonKey, reason);
    assert row.columns <= once.columns <= out.columns;
    assert out.cells == row.cells[UrlKey := url][ReasonKey := reason];
  }

  /** `procesar_fila(index, row)` with `classify` standing for
      `clasificar_url`, so that what is stated holds for any classifier. */
  function ProcessRow(row: Row, classify: string -> string): (r: Option<Row>)
    requires row.Valid()
    ensures DetectedUrl(row).None? ==> r.None?
    ensures r.None? <==> DetectedUrl(row).None? || classify(DetectedUrl(row).value) == OperationalText
    ensures r.Some? ==> Annotates(row, r.value, DetectedUrl(row).value, classify(DetectedUrl(row).value))
  {
    match DetectedUrl(row)
    case None => None
    case Some(url) =>
      var reason := classify(url);
      if reason != OperationalText then
        AnnotationOfRow(row, url, reason);
        Some(row.Put(UrlKey, url).Put(ReasonKey, reason))
      else None
  }

  /** The real classifier: each URL is probed, and the outcome classified
      and rendered. */
  function ClassifyProbed(probe: string -> Outcome): string -> string {
    url => Render(Classify(url, probe(url)))
  }

  /** With the real classifier, a row is dropped exactly when it has no URL
      or its URL is operational. */
  lemma ProbedRowDroppedIffOperational(row: Row, probe: string -> Outcome)
    requires row.Valid()
    ensures ProcessRow(row, ClassifyProbed(probe)).None? <==>
              DetectedUrl(row).None? || Classify(DetectedUrl(row).value, probe(DetectedUrl(row).value)) == Operational
  {
    if DetectedUrl(row).Some? {
      var url := DetectedUrl(row).value;
      RenderOperationalOnly(Classify(url, probe(url)));
    }
  }

}

=== FILE: run.dfy ===
/** The chunked run over a table of rows (app.py): every row of every block
    goes through the row processor, and the kept rows of each block, in
    completion order, are appended to the results. */
module Run {
  import opened Wrappers
  import opened Batch
  import opened RowProcessor

  /** `procesar_fila` as the per-row step of the run. Rows of a table are
      always well-formed; the guard only makes the step total. */
  function KeepRow(classify: string -> string): Row -> Option<Row> {
    (row: Row) => if row.Valid() then ProcessRow(row, classify) else None
  }

  /** The step keeps a row exactly when it is well-formed and the row
      processor keeps it, with the same result. */
  lemma KeptByKeepRow(classify: string -> string, row: Row)
    ensures KeepRow(classify)(row).Some? <==> row.Valid() && ProcessRow(row, classify).Some?
    ensures KeepRow(classify)(row).Some? ==> KeepRow(classify)(row) == ProcessRow(row, classify)
  {
  }

  lemma ReportedRowsComeFromTable(rows: seq<Row>, results: seq<Row>, classify: string -> string)
    requires forall i :: 0 <= i < |rows| ==> rows[i].Valid()
    requires multiset(results) == multiset(Collect(rows, KeepRow(classify)))
    ensures forall u :: u in results ==> exists i :: 0 <= i < |rows| && ProcessRow(rows[i], classify) == Some(u)
  {
    var keep := KeepRow(classify);
    CollectedMembers(rows, results, keep);
    forall u | u in results
      ensures exists i :: 0 <= i < |rows| && ProcessRow(rows[i], classify) == Some(u)
    {
      var i :| 0 <= i < |rows| && keep(rows[i]) == Some(u);
      KeptByKeepRow(classify, rows[i]);
    }
  }

  lemma KeptRowsAreReported(rows: seq<Row>, results: seq<Row>, classify: string -> string)
    requires forall i :: 0 <= i < |rows| ==> rows[i].Valid()
    requires multiset(results) == multiset(Collect(rows, KeepRow(classify)))
    ensures forall i :: 0 <= i < |rows| && ProcessRow(rows[i], classify).Some? ==> ProcessRow(rows[i], classify).value in results
  {
    var keep := KeepRow(classify);
    CollectedMembers(rows, results, keep);
    forall i | 0 <= i < |rows| && ProcessRow(rows[i], classify).Some?
      ensures ProcessRow(rows[i], classify).value in results
    {
      KeptByKeepRow(classify, rows[i]);
    }
  }

  /** The results of the chunked run are exactly the rows the row processor
      keeps: each reported row comes from some row of the table, each kept
      row is reported, and nothing is lost or repeated. */
  lemma ChunkedRunReportsKeptRows(rows: seq<Row>, chunks: seq<Chunk>, blocks: seq<seq<Row>>, classify: string -> string)
    requires forall i :: 0 <= i < |rows| ==> rows[i].Valid()
    requires Tiles(chunks, |rows|)
    requires |blocks| == |chunks|
    requires forall k :: 0 <= k < |chunks| ==>
               && chunks[k].start <= chunks[k].end <= |rows|
               && multiset(blocks[k]) == multiset(Collect(rows[chunks[k].start..chunks[k].end], KeepRow(classify)))
    ensures multiset(Flatten(blocks)) == multiset(Collect(rows, KeepRow(classify)))
    ensures forall u :: u in Flatten(blocks) ==> exists i :: 0 <= i < |rows| && ProcessRow(rows[i], classify) == Some(u)
    ensures forall i :: 0 <= i < |rows| && ProcessRow(rows[i], classify).Some? ==> ProcessRow(rows[i], classify).value in Flatten(blocks)
  {
    RunKeepsEachFlaggedRowOnce(rows, chunks, blocks, KeepRow(classify));
    ReportedRowsComeFromTable(rows, Flatten(blocks), classify);
    KeptRowsAreReported(rows, Flatten(blocks), classify);
  }

}

=== FILE: text.dfy ===
/** The handful of Python `str` operations the link checker relies on:
    substring containment (`t in s`), ASCII lower-casing, `strip` of one
    character and `sep.join(xs)`. */
module Text {

  /** `t` occurs in `s` starting at index `i`. */
  predicate OccursAt(s: string, t: string, i: nat) {
    i + |t| <= |s| && s[i..i + |t|] == t
  }

  /** `t` is a contiguous piece of `s`. */
  ghost predicate IsSubstring(t: string, s: string) {
    exists i: nat :: OccursAt(s, t, i)
  }

  /** Left-to-right scan for `t` in `s`, starting at `from`. */
  function ContainsFrom(s: string, t: string, from: nat): (b: bool)
    decreases |s| - from
    ensures b <==> exists i: nat :: from <= i && OccursAt(s, t, i)
  {
    if from + |t| > |s| then false
    else if s[from..from + |t|] == t then assert OccursAt(s, t, from); true
    else ContainsFrom(s, t, from + 1)
  }

  /** Python's `t in s` on strings. */
  function Contains(s: string, t: string): (b: bool)
    ensures b <==> IsSubstring(t, s)
  {
    ContainsFrom(s, t, 0)
  }

  function LowerChar(c: char): char {
    if 'A' <= c <= 'Z' then (c as int - 'A' as int + 'a' as int) as char else c
  }

  /** Lower-casing restricted to the ASCII letters: each capital becomes its
      small letter, every other character stays, and no capital remains. */
  function AsciiLower(s: string): (r: string)
    ensures |r| == |s|
    ensures forall i :: 0 <= i < |s| && 'A' <= s[i] <= 'Z' ==> r[i] as int == s[i] as int + 32
    ensures forall i :: 0 <= i < |s| && !('A' <= s[i] <= 'Z') ==> r[i] == s[i]
    ensures forall i :: 0 <= i < |r| ==> !('A' <= r[i] <= 'Z')
  {
    seq(|s|, i requires 0 <= i < |s| => LowerChar(s[i]))
  }

  /** Drops every leading `c`. */
  function TrimStart(s: string, c: char): (r: string)
    ensures |r| <= |s| && r == s[|s| - |r|..]
    ensures forall k :: 0 <= k < |s| - |r| ==> s[k] == c
    ensures r == [] || r[0] != c
  {
    if |s| > 0 && s[0] == c then TrimStart(s[1..], c) else s
  }

  /** Drops every trailing `c`. */
  function TrimEnd(s: string, c: char): (r: string)
    ensures |r| <= |s| && r == s[..|r|]
    ensures forall k :: |r| <= k < |s| ==> s[k] == c
    ensures r == [] || r[|r| - 1] != c
  {
    if |s| > 0 && s[|s| - 1] == c then TrimEnd(s[..|s| - 1], c) else s
  }

  /** A prefix `r` of a suffix `t` of `s`, followed in `t` only by `c`,
      sits at `|s| - |t|` with only `c` after it. */
  lemma PieceOfSuffix(s: string, c: char, t: string, r: string)
    requires |t| <= |s| && t == s[|s| - |t|..]
    requires |r| <= |t| && r == t[..|r|]
    requires forall k :: |r| <= k < |t| ==> t[k] == c
    ensures OccursAt(s, r, |s| - |t|)
    ensures forall k :: |s| - |t| + |r| <= k < |s| ==> s[k] == c
  {
    var i := |s| - |t|;
    assert OccursAt(s, r, i) by {
      assert s[i..i + |r|] == s[i..][..|r|];
    }
    forall k | i + |r| <= k < |s|
      ensures s[k] == c
    {
      assert s[k] == t[k - i];
    }
  }

  /** Python's `s.strip(c)` for a single character `c`: the piece of `s`
      left once the runs of `c` at both ends are removed. */
  function Strip(s: string, c: char): (r: string)
    ensures r == [] || (r[0] != c && r[|r| - 1] != c)
    ensures exists i: nat :: OccursAt(s, r, i)
                            && (forall k :: 0 <= k < i ==> s[k] == c)
                            && (forall k :: i + |r| <= k < |s| ==> s[k] == c)
  {
    var t := TrimStart(s, c);
    var r := TrimEnd(t, c);
    PieceOfSuffix(s, c, t, r);
    r
  }

  /** Python's `sep.join(xs)`. */
  function Join(xs: seq<string>, sep: string): (r: string)
    ensures |xs| == 0 ==> r == ""
    ensures |xs| == 1 ==> r == xs[0]
    ensures |xs| > 0 ==> xs[0] <= r
    ensures |xs| > 0 ==> |xs[|xs| - 1]| <= |r| && r[|r| - |xs[|xs| - 1]|..] == xs[|xs| - 1]
    decreases |xs|
  {
    if |xs| == 0 then ""
    else if |xs| == 1 then xs[0]
    else
      var rest := Join(xs[1..], sep);
      var r := xs[0] + sep + rest;
      var last := xs[|xs| - 1];
      assert xs[1..][|xs| - 2] == last;
      assert r[|r| - |last|..] == rest[|rest| - |last|..] by {
        assert r[|r| - |rest|..] == rest;
      }
      r
  }

  /** Joining one more element appends the separator and that element. */
  lemma {:induction false} JoinSnoc(xs: seq<string>, y: string, sep: string)
    requires |xs| > 0
    ensures Join(xs + [y], sep) == Join(xs, sep) + sep + y
    decreases |xs|
  {
    if |xs| == 1 {
      assert (xs + [y])[1..] == [y];
    } else {
      assert (xs + [y])[1..] == xs[1..] + [y];
      JoinSnoc(xs[1..], y, sep);
    }
  }

  /** The joined text of the first `k` elements is a prefix of the joined
      text of all of them, so the trace starts with its first fields. */
  lemma {:induction false} JoinPrefix(xs: seq<string>, k: nat, sep: string)
    requires 0 < k <= |xs|
    ensures Join(xs[..k], sep) <= Join(xs, sep)
    decreases |xs| - k
  {
    if k < |xs| {
      JoinPrefix(xs, k + 1, sep);
      assert xs[..k + 1] == xs[..k] + [xs[k]];
      JoinSnoc(xs[..k], xs[k], sep);
    } else {
      assert xs[..k] == xs;
    }
  }

}

=== FILE: url_extractor.dfy ===
/** `extraer_url_mejorada` (app.py): the two regular-expression searches
    replaced by hand-written scanners, with the regex semantics stated
    declaratively as `HrefMatch` and `BareMatch`.

    - `href=['"](https?://[^\s'"]+)['"]` is tried first; its group is returned;
    - otherwise `(https?://[^\s'"<>]+)` is tried;
    - otherwise there is no URL.

    `re.search` returns the leftmost match, and a greedy `+` with nothing
    after it (the bare pattern) takes the longest run. */
module UrlExtractor {
  import opened Wrappers
  import opened Text

  /** Python's `\s` on `str` patterns: the characters `str.isspace` accepts. */
  predicate IsSpace(c: char) {
    var n := c as int;
    || 0x09 <= n <= 0x0D
    || 0x1C <= n <= 0x20
    || n == 0x85 || n == 0xA0 || n == 0x1680
    || 0x2000 <= n <= 0x200A
    || n == 0x2028 || n == 0x2029 || n == 0x202F || n == 0x205F || n == 0x3000
  }

  predicate IsQuote(c: char) {
    c == '\'' || c == '"'
  }

  /** The character class each pattern repeats after the scheme:
      `[^\s'"]` in the href pattern, `[^\s'"<>]` in the bare one. */
  datatype RunClass = HrefRun | BareRun

  predicate InRun(c: char, k: RunClass) {
    !IsSpace(c) && !IsQuote(c) && (k.BareRun? ==> c != '<' && c != '>')
  }

  const Http: string := "http://"
  const Https: string := "https://"
  const HrefOpen: string := "href="

  /** Length of the `https?://` that starts at `i`, or 0 when none does. */
  function SchemeLength(s: string, i: nat): (n: nat)
    ensures n == 0 || n == 7 || n == 8
    ensures n > 0 ==> i + n <= |s|
    ensures n == 8 <==> OccursAt(s, Https, i)
    ensures n > 0 <==> OccursAt(s, Http, i) || OccursAt(s, Https, i)
  {
    if OccursAt(s, Https, i) then 8 else if OccursAt(s, Http, i) then 7 else 0
  }

  /** The href pattern matches at `i` and its group is `s[i + 6..e]`. */
  ghost predicate HrefMatch(s: string, i: nat, e: nat) {
    && OccursAt(s, HrefOpen, i)
    && i + 6 <= |s|
    && IsQuote(s[i + 5])
    && SchemeLength(s, i + 6) > 0
    && i + 6 + SchemeLength(s, i + 6) < e < |s|
    && (forall k :: i + 6 + SchemeLength(s, i + 6) <= k < e ==> InRun(s[k], HrefRun))
    && IsQuote(s[e])
  }

  /** The bare pattern matches at `i` and greedily extends to `e`. */
  ghost predicate BareMatch(s: string, i: nat, e: nat) {
    && SchemeLength(s, i) > 0
    && i + SchemeLength(s, i) < e <= |s|
    && (forall k :: i + SchemeLength(s, i) <= k < e ==> InRun(s[k], BareRun))
    && (e == |s| || !InRun(s[e], BareRun))
  }

  /** What any returned URL looks like: an `http://` or `https://` scheme,
      at least one character after it, and no whitespace or quote. */
  ghost predicate IsUrlShape(u: string) {
    && (OccursAt(u, Http, 0) || OccursAt(u, Https, 0))
    && |u| > SchemeLength(u, 0)
    && forall k :: 0 <= k < |u| ==> InRun(u[k], HrefRun)
  }

  /** End of the run of class `k` that starts at `j`. */
  function RunEnd(s: string, j: nat, k: RunClass): (e: nat)
    requires j <= |s|
    decreases |s| - j
    ensures j <= e <= |s|
    ensures forall t :: j <= t < e ==> InRun(s[t], k)
    ensures e == |s| || !InRun(s[e], k)
  {
    if j == |s| || !InRun(s[j], k) then j else RunEnd(s, j + 1, k)
  }

  /** A run of class `k` from `j` can only stop where `RunEnd` stops: this is
      why the regex engine has nothing to backtrack to. */
  lemma RunEndIsTheOnlyBoundary(s: string, j: nat, k: RunClass, e: nat)
    requires j <= e <= |s|
    requires forall t :: j <= t < e ==> InRun(s[t], k)
    requires e == |s| || !InRun(s[e], k)
    ensures e == RunEnd(s, j, k)
  {
  }

  lemma HrefMatchEndsTheRun(s: string, i: nat)
    ensures forall e: nat :: HrefMatch(s, i, e) ==> e == RunEnd(s, i + 6 + SchemeLength(s, i + 6), HrefRun)
  {
    forall e | HrefMatch(s, i, e)
      ensures e == RunEnd(s, i + 6 + SchemeLength(s, i + 6), HrefRun)
    {
      RunEndIsTheOnlyBoundary(s, i + 6 + SchemeLength(s, i + 6), HrefRun, e);
    }
  }

  lemma BareMatchEndsTheRun(s: string, i: nat)
    ensures forall e: nat :: BareMatch(s, i, e) ==> e == RunEnd(s, i + SchemeLength(s, i), BareRun)
  {
    forall e | BareMatch(s, i, e)
      ensures e == RunEnd(s, i + SchemeLength(s, i), BareRun)
    {
      RunEndIsTheOnlyBoundary(s, i + SchemeLength(s, i), BareRun, e);
    }
  }

  /** The href pattern tried at position `i` alone: the end of its group. */
  function HrefEndAt(s: string, i: nat): (r: Option<nat>)
    ensures r.Some? ==> HrefMatch(s, i, r.value)
    ensures r.None? ==> forall e: nat :: !HrefMatch(s, i, e)
  {
    if OccursAt(s, HrefOpen, i) && i + 6 <= |s| && IsQuote(s[i + 5]) && SchemeLength(s, i + 6) > 0 then
      var start := i + 6 + SchemeLength(s, i + 6);
      var e := RunEnd(s, start, HrefRun);
      HrefMatchEndsTheRun(s, i);
      if start < e < |s| && IsQuote(s[e]) then Some(e) else None
    else
      None
  }

  /** The bare pattern tried at position `i` alone: the end of its match. */
  function BareEndAt(s: string, i: nat): (r: Option<nat>)
    ensures r.Some? ==> BareMatch(s, i, r.value)
    ensures r.None? ==> forall e: nat :: !BareMatch(s, i, e)
  {
    if SchemeLength(s, i) > 0 then
      var start := i + SchemeLength(s, i);
      var e := RunEnd(s, start, BareRun);
      BareMatchEndsTheRun(s, i);
      if start < e then Some(e) else None
    else
      None
  }

  /** `re.search` with the href pattern from `from` on: the leftmost match
      position and the end of its group. */
  function FindHref(s: string, from: nat): (r: Option<(nat, nat)>)
    decreases |s| - from
    ensures r.Some? ==> from <= r.value.0 && HrefMatch(s, r.value.0, r.value.1)
    ensures r.Some? ==> forall i: nat, e: nat :: from <= i < r.value.0 ==> !HrefMatch(s, i, e)
    ensures r.None? ==> forall i: nat, e: nat :: from <= i ==> !HrefMatch(s, i, e)
  {
    if from >= |s| then None
    else
      match HrefEndAt(s, from)
      case Some(e) => Some((from, e))
      case None => FindHref(s, from + 1)
  }

  /** `re.search` with the bare pattern from `from` on. */
  function FindBare(s: string, from: nat): (r: Option<(nat, nat)>)
    decreases |s| - from
    ensures r.Some? ==> from <= r.value.0 && BareMatch(s, r.value.0, r.value.1)
    ensures r.Some? ==> forall i: nat, e: nat :: from <= i < r.value.0 ==> !BareMatch(s, i, e)
    ensures r.None? ==> forall i: nat, e: nat :: from <= i ==> !BareMatch(s, i, e)
  {
    if from >= |s| then None
    else
      match BareEndAt(s, from)
      case Some(e) => Some((from, e))
      case None => FindBare(s, from + 1)
  }

  lemma SchemeCharsAreRunChars()
    ensures forall k :: 0 <= k < |Https| ==> InRun(Https[k], BareRun)
    ensures forall k :: 0 <= k < |Http| ==> InRun(Http[k], BareRun)
  {
    assert Https == ['h', 't', 't', 'p', 's', ':', '/', '/'];
    assert Http == ['h', 't', 't', 'p', ':', '/', '/'];
  }

  /** A match group of either pattern has the shape of a URL. */
  lemma MatchedPieceIsUrl(s: string, a: nat, b: nat, k: RunClass)
    requires SchemeLength(s, a) > 0 && a + SchemeLength(s, a) < b <= |s|
    requires forall t :: a + SchemeLength(s, a) <= t < b ==> InRun(s[t], k)
    ensures IsUrlShape(s[a..b])
  {
    var u := s[a..b];
    var n := SchemeLength(s, a);
    SchemeCharsAreRunChars();
    if n == 8 {
      assert u[..8] == s[a..a + 8] == Https;
      assert OccursAt(u, Https, 0);
    } else {
      assert u[..7] == s[a..a + 7] == Http;
      assert OccursAt(u, Http, 0);
      assert u[4] == Http[4] != Https[4];
    }
    assert SchemeLength(u, 0) == n;
    forall t | 0 <= t < |u|
      ensures InRun(u[t], HrefRun)
    {
      if t < n {
        assert u[t] == (if n == 8 then Https[t] else Http[t]);
      } else {
        assert u[t] == s[a + t];
      }
    }
  }

  /** `extraer_url_mejorada(texto)` for the `str(texto)` the caller passes. */
  function ExtractUrl(text: string): (r: Option<string>)
    ensures r.None? <==> (forall i: nat, e: nat :: !HrefMatch(text, i, e)) && (forall i: nat, e: nat :: !BareMatch(text, i, e))
    ensures r.Some? ==> IsUrlShape(r.value) && IsSubstring(r.value, text)
    ensures r.Some? ==>
              || (exists i: nat, e: nat :: HrefMatch(text, i, e) && r.value == text[i + 6..e])
              || ((forall i: nat, e: nat :: !HrefMatch(text, i, e)) && exists i: nat, e: nat :: BareMatch(text, i, e) && r.value == text[i..e])
  {
    match FindHref(text, 0)
    case Some((i, e)) =>
      MatchedPieceIsUrl(text, i + 6, e, HrefRun);
      assert OccursAt(text, text[i + 6..e], i + 6);
      Some(text[i + 6..e])
    case None =>
      match FindBare(text, 0)
      case Some((i, e)) =>
        MatchedPieceIsUrl(text, i, e, BareRun);
        assert OccursAt(text, text[i..e], i);
        Some(text[i..e])
      case None => None
  }

  /** The href pattern matches at `i`, and at no earlier position. */
  ghost predicate FirstHref(text: string, i: nat, e: nat) {
    HrefMatch(text, i, e) && forall i': nat, e': nat :: i' < i ==> !HrefMatch(text, i', e')
  }

  /** A quoted href wins over any bare URL, even one earlier in the text. */
  lemma ExtractPrefersHref(text: string, i: nat, e: nat)
    requires FirstHref(text, i, e)
    ensures ExtractUrl(text) == Some(text[i + 6..e])
  {
    var r := FindHref(text, 0);
    assert r.Some?;
    var (i0, e0) := r.value;
    assert i0 == i;
    HrefMatchEndsTheRun(text, i);
  }

  /** Without any href, the first bare URL is returned whole: it runs up to
      whitespace, a quote, `<`, `>` or the end of the text. */
  lemma ExtractBareIsLeftmostLongest(text: string, i: nat, e: nat)
    requires forall i': nat, e': nat :: !HrefMatch(text, i', e')
    requires BareMatch(text, i, e)
    requires forall i': nat, e': nat :: i' < i ==> !BareMatch(text, i', e')
    ensures ExtractUrl(text) == Some(text[i..e])
  {
    var r := FindBare(text, 0);
    assert r.Some?;
    var (i0, e0) := r.value;
    assert i0 == i;
    BareMatchEndsTheRun(text, i);
  }

  /** The text of an anchor whose href quotes `url`. */
  function Anchor(url: string, rest: string): string {
    "<a " + HrefOpen + "\"" + url + "\"" + rest
  }

  lemma AnchorHrefMatch(url: string, rest: string)
    requires IsUrlShape(url)
    ensures HrefMatch(Anchor(url, rest), 3, 9 + |url|)
    ensures Anchor(url, rest)[9..9 + |url|] == url
  {
    var pre := "<a " + HrefOpen + "\"";
    var text := Anchor(url, rest);
    assert text == pre + url + "\"" + rest;
    assert |pre| == 9;
    assert text[..9] == pre;
    assert text[9..9 + |url|] == url;
    assert text[9 + |url|] == '"';
    assert text[3..8] == pre[3..8] == HrefOpen;
    assert OccursAt(text, HrefOpen, 3);
    var n := SchemeLength(url, 0);
    if OccursAt(url, Https, 0) {
      assert text[9..17] == url[..8];
    } else {
      assert text[9..16] == url[..7];
      assert text[13] == url[4] == Http[4] != Https[4];
    }
    assert SchemeLength(text, 9) == n;
    assert forall k :: 9 + n <= k < 9 + |url| ==> text[k] == url[k - 9];
  }

  lemma NoHrefBeforeAnchor(url: string, rest: string)
    ensures forall i': nat, e': nat :: i' < 3 ==> !HrefMatch(Anchor(url, rest), i', e')
  {
    var text := Anchor(url, rest);
    assert text[0] == '<' && text[1] == 'a' && text[2] == ' ';
    forall i': nat, e': nat | i' < 3
      ensures !HrefMatch(text, i', e')
    {
      assert text[i'] != HrefOpen[0];
    }
  }

  lemma AnchorFirstHref(url: string, rest: string)
    requires IsUrlShape(url)
    ensures FirstHref(Anchor(url, rest), 3, 9 + |url|)
  {
    AnchorHrefMatch(url, rest);
    NoHrefBeforeAnchor(url, rest);
  }

  /** A URL quoted in an anchor comes back exactly as written: nothing is
      cut off and nothing is added, whatever follows the closing quote. */
  lemma AnchorUrlExtractedWhole(url: string, rest: string)
    requires IsUrlShape(url)
    ensures ExtractUrl(Anchor(url, rest)) == Some(url)
  {
    var text := Anchor(url, rest);
    var e := 9 + |url|;
    AnchorFirstHref(url, rest);
    ExtractPrefersHref(text, 3, e);
    AnchorHrefMatch(url, rest);
  }

}

=== FILE: wrappers.dfy ===
/** The optional value used wherever the Python code returns `None`. */
module Wrappers {

  datatype Option<+T> = None | Some(value: T)

}
